=== FILE: README.md ===
# Account credential and verification lifecycle — a Dafny model

This project models the authentication controller of a dating-app backend
(`backend/controllers/authControllers.js`) over the auth-relevant part of its
Mongoose `User` schema (`backend/models/user.js`). The controller is a small
state machine over user records keyed by email. Each record has a password
hash, an `isVerified` flag, an optional six-digit `verificationCode` and a
resend throttle expiry. Six routed handlers and one unrouted twin drive the
transitions:

- `registerUser`
- `verifyUser`, and its unrouted twin `verifyPasswordResetCode`
- `loginUser`
- `forgotPassword`
- `resetPassword`
- `resendVerificationCode`

With I/O removed, each handler is a guard chain ending in at most one
`save`. Here each one is a pure function
`(Store, request, now, random inputs) -> Step(store, reply, mail)`.

Abstractions:

- **bcrypt** is a hash of its key, with salt and cost abstracted. The key is
  the 72 bytes bcryptjs feeds its cipher: the password's UTF-8 bytes and a
  terminating NUL, read cyclically from the start until 72 bytes are taken.
  `bcrypt.compare(p, h)` is `Hash(p) == h`. So a digest accepts its own
  password. Among passwords without NUL, it accepts nothing else below 72
  bytes, and at 72 bytes or more every password with the same first 72
  bytes. The stored password has type `PasswordHash`, never `string`.
- **JWT.** A JWT is `Token(claim, exp, genuine)`. The claim is `EmailClaim` or
  `UserIdClaim`. `jwt.verify` accepts a genuine token while `now < exp`. The
  `ignoreExpiration` variant checks only that the token is genuine.
- **Time** is one integer clock in seconds.
- **`Math.random()`** is a parameter in [0, 1). The code
  `Math.floor(100000 + r * 900000).toString()` is computed over the reals and
  then written out in decimal.
- **`generateVerificationCode()`** is a parameter in 100000..999999.
- **Email sending** becomes an outbox entry. Whether the email service
  accepted the message is a parameter (`delivered`).
- **ObjectIds** come from a counter.
- **The collection's natural order** is represented only by its first document.

Modules: `Wrappers`, `Bcrypt` (UTF-8, the bcrypt key, hashing), `Codes`
(six-digit codes), `Jwt` (tokens),
`UserModel` (record, collection, `findOne`), `AuthControllers` (the
handlers), `AuthRoutes` (requests and runs), `AuthInvariants`,
`AuthScenarios`, `AuthFindings`.

Two Mongoose default behaviours decide whether the controller works as
written. They are a parameter `Driver`:

- `Intended` is the behaviour the controller is written against. The rest of
  the model uses it.
- `Deployed` is Mongoose's defaults. See "## Findings".

The controller's handling of the throttle field is modelled as intended.
This rests on one assumption: the `verificationExpires` write is persisted.
The schema does not declare that field.

## Model

| member | source | states |
|---|---|---|
| Bcrypt.EncodeCharDecodes | backend/controllers/authControllers.js:27 | the UTF-8 encoding of a character announces its own length in its lead byte and decodes back to the character |
| Bcrypt.Utf8Append | backend/controllers/authControllers.js:27 | the UTF-8 encoding of a concatenation is the concatenation of the encodings |
| Bcrypt.Utf8Injective | backend/controllers/authControllers.js:27 | two strings with the same UTF-8 bytes are equal |
| Bcrypt.CompareRoundTrip | backend/controllers/authControllers.js:100 | comparing against the hash of a password accepts that password; among passwords without NUL it accepts exactly the password itself and, when both are 72 UTF-8 bytes or longer, those agreeing on the first 72 bytes; the 72-byte clause holds with NULs too |
| Bcrypt.ShortKeysCycle | backend/controllers/authControllers.js:100 | a short key is read cyclically, so "a" and "a\0a" have the same digest |
| Bcrypt.LongPasswordsShareDigest | backend/controllers/authControllers.js:204 | whatever follows the first 72 UTF-8 bytes of a password does not change its hash |
| Codes.RandomCode | backend/controllers/authControllers.js:30 | the number drawn from any value of Math.random() lies in 100000..999999 |
| Codes.RandomCodeCovers | backend/controllers/authControllers.js:30 | every number in 100000..999999 can be drawn |
| Codes.Decimal | backend/controllers/authControllers.js:30 | toString of a number is a non-empty string of decimal digits with no leading zero |
| Codes.ParseDecimalOfDecimal | backend/controllers/authControllers.js:30 | the decimal string of a number reads back as that number |
| Codes.DecimalLength | backend/controllers/authControllers.js:30 | a number in [10^k, 10^(k+1)) has k+1 digits |
| Codes.CodeString | backend/controllers/authControllers.js:30 | a stored code is exactly six digits with no leading zero, and determines its number |
| Codes.CodeStringInjective | backend/controllers/authControllers.js:244-245 | two codes are equal exactly when their numbers are |
| Jwt.SignThenVerify | backend/controllers/authControllers.js:31 | a signed token verifies to its claim until its lifetime has passed and never afterwards; the lenient check always accepts it |
| Jwt.VerifyRejectsForgery | backend/controllers/authControllers.js:225 | a forged token fails both checks, even when expiry is ignored |
| UserModel.FindOne | backend/models/user.js:7 | a lookup by a defined email finds that record exactly when it exists; an undefined email finds nothing unless the driver matches any document |
| UserModel.FindOneUndefinedWhenDeployed | backend/controllers/authControllers.js:195-198 | under Mongoose defaults an undefined email filter finds the first record of a non-empty collection |
| UserModel.EmptyStoreWf | backend/models/user.js:7-8 | the empty collection satisfies the uniqueness invariant |
| AuthControllers.Utf16Length | backend/controllers/authControllers.js:183 | the JavaScript length of a password is between its character count and twice that |
| AuthControllers.Register | backend/controllers/authControllers.js:18-51 | a known email is refused with no change; a reused phone fails the save with no change; otherwise exactly one record is added with the hashed password, unverified, status 'unverified', a six-digit code, and the code is mailed and a 10-minute email token returned when delivery succeeds |
| AuthControllers.VerifyUserOn | backend/controllers/authControllers.js:55-88 | whatever the driver: no mail; a missing or non-Bearer header gives the format error, an invalid token gives 401; failures change nothing; a success changes one record whose stored code was the submitted one, setting it verified and clearing the code |
| AuthControllers.VerifyUser | backend/controllers/authControllers.js:55-88 | succeeds exactly when a valid bearer token names an existing email whose stored code equals the submitted code; then only that record becomes verified with its code cleared; each failure kind is named and leaves the store unchanged |
| AuthControllers.VerifyPasswordResetCode | backend/controllers/authControllers.js:138-171 | never mails; succeeds exactly when a valid bearer token names an existing email whose stored code equals the submitted code, and then only that record changes, becoming verified with its code cleared; every failure leaves the store unchanged |
| AuthControllers.Login | backend/controllers/authControllers.js:92-112 | never writes; unknown email and wrong password give the same error; "verify first" exactly when the password matches an unverified record; a 7-day userId token exactly for a verified record with matching password |
| AuthControllers.ForgotPassword | backend/controllers/authControllers.js:115-135 | unknown email is refused with no change; otherwise only the code of that record changes, to a fresh six-digit code, which is mailed, and a 10-minute email token is returned |
| AuthControllers.ResetPasswordOn | backend/controllers/authControllers.js:176-213 | whatever the driver: guards in order token present, length at least 6, token valid; failures change nothing; a success rewrites one record's password hash and clears its code |
| AuthControllers.ResetPassword | backend/controllers/authControllers.js:176-213 | succeeds exactly when the password is long enough and a valid token names an existing email; then only that record's hash and code change, isVerified kept, no code compared; each failure kind is named |
| AuthControllers.ResendVerificationCodeOn | backend/controllers/authControllers.js:216-263 | whatever the driver: the reply is a token or an error, never a bare success; no header token and forged token are refused; a write happens only for a genuine email token of an existing unverified record whose throttle window is closed; such a request is always accepted and stores a new code and, unless the schema is strict, the ten-minute window, then returns a fresh 15-minute token and mails the code when delivery succeeds, or answers a server error without mail when it fails |
| AuthControllers.ResendVerificationCode | backend/controllers/authControllers.js:216-263 | expired but genuine tokens are accepted; each guard's error is named; "please wait" exactly while the stored expiry is in the future; a request passing every guard is accepted, rewriting only that record's code and ten-minute window, and the reply and mail depend only on delivery |
| AuthInvariants.RegisterPreservesWf | backend/models/user.js:7-8 | registration keeps emails, phones and ObjectIds unique and every stored code six digits |
| AuthInvariants.PutPreservesWf | backend/models/user.js:7-19 | rewriting one record's mutable auth fields keeps the collection well formed |
| AuthInvariants.ApplyPreservesWf | backend/controllers/authControllers.js:18-263 | every handler keeps the collection well formed |
| AuthInvariants.ApplyGrows | backend/controllers/authControllers.js:79 | no handler removes a record, changes its ObjectId or sets isVerified from true back to false |
| AuthInvariants.RunPreservesWf | backend/models/user.js:7-19 | every run of requests keeps the collection well formed, including status staying 'unverified' |
| AuthInvariants.RunGrows | backend/controllers/authControllers.js:162 | across any run, verified records stay verified and no record is lost |
| AuthInvariants.VerificationNeedsStoredCode | backend/controllers/authControllers.js:75-80 | a single request verifies a record only if it is a verify request whose token names it and whose code is the stored one |
| AuthInvariants.RunVerificationNeedsStoredCode | backend/controllers/authControllers.js:75-81 | across any run, a record that becomes verified was verified by a step presenting the code stored for it just before |
| AuthScenarios.LoginBeforeVerification | backend/controllers/authControllers.js:103 | a freshly registered user with the right password is told to verify first |
| AuthScenarios.RegisterVerifyLogin | backend/controllers/authControllers.js:75-106 | after registering, a wrong code is refused with no change, the mailed code verifies, the cleared code cannot be reused, and login then issues the session token |
| AuthScenarios.RegistrationTokenExpires | backend/controllers/authControllers.js:31 | after ten minutes the registration token no longer verifies, whatever the code |
| AuthScenarios.ResendThrottle | backend/controllers/authControllers.js:239-246 | a second resend within ten minutes is refused with no change; after the window it succeeds and the earlier code verifies only if the new number equals the old |
| AuthScenarios.ResetThenLogin | backend/controllers/authControllers.js:204 | after a reset the new password logs in; the old one is refused exactly when its 72-byte cyclic bcrypt key differs from the new one's, and otherwise still logs in |
| AuthScenarios.ForgotThenReset | backend/controllers/authControllers.js:121-125 | the token from forgotPassword lets a reset succeed within ten minutes; the code is cleared and isVerified kept |
| AuthScenarios.RegistrationTokenResetsPassword | backend/controllers/authControllers.js:190 | tokens carry no purpose: the registration token resets the password without any code |
| AuthScenarios.ResetKeepsLongPasswordTwin | backend/controllers/authControllers.js:183-204 | after a reset to a password of 72 or more UTF-8 bytes, any password with the same first 72 bytes also logs in |
| AuthScenarios.ResetCodeAlsoVerifies | backend/controllers/authControllers.js:125 | reset and verification share the code field: a forgot-password code and token verify an unverified record |
| AuthScenarios.ResetCodeVerifierMatchesVerifyUser | backend/controllers/authControllers.js:138-171 | the separately written unrouted handler gives the same store, reply and mail as verifyUser on every input |
| AuthFindings.DeployedThrottleNeverFires | backend/models/user.js:9-15 | under a strict schema, a resend never answers "please wait" and never leaves an expiry behind |
| AuthFindings.ResendTwiceAtOnce | backend/controllers/authControllers.js:239-246 | two immediate resends both succeed under Mongoose defaults; under the intended behaviour the second is refused |
| AuthFindings.DeployedSessionTokenResetsFirstAccount | backend/controllers/authControllers.js:195-206 | under Mongoose defaults, any user's session token resets the first record's password; intended: the same request is refused with no change |
| AuthFindings.ResetTouchesOnlyClaimedAccount | backend/controllers/authControllers.js:195-205 | intended: a reset leaves every record other than the token's email untouched, and a session token changes nothing |
| AuthFindings.DeployedSessionTokenVerifiesFirstAccount | backend/controllers/authControllers.js:69-81 | under Mongoose defaults, a session token plus the first record's code verifies the first record; intended: refused |
| AuthFindings.VerifyTouchesOnlyClaimedAccount | backend/controllers/authControllers.js:69-80 | intended: a verification leaves every record other than the token's email untouched |

## Left out

- `getAllUsers` and `deleteAllUsers` are administrative CRUD with no auth logic. The core never deletes records.
- The commented-out phone OTP handlers are dead code.
- Profile, matching and activity fields of the schema hold plain data with no behaviour. This includes `name` and `username`.
- `otp` and `expiresAt` are declared in the schema, but the controller never reads or writes them.
- Not modelled: the HTTP layer, routing middleware and status codes. Replies are an error-kind enum with one kind per failure the controller tells apart, not per message text. In `backend/controllers/authControllers.js`, the resend handler's "User not found." (line 235) shares `UserNotFound` with "User not found" (lines 73, 120, 156, 200). Its "Invalid token." (line 228, status 400, the lenient check failed) is `MalformedToken`, apart from the 401 "Invalid token" of lines 86 and 169. `ServerError` stands for every caught exception.
- Header parsing is abstracted to a first word plus an optional token. So `"Bearer"` (format error) and `"Bearer "` (invalid token) are not distinguished. Both are 401 and change nothing.
- The body validators in `backend/validators/validator.js` are not part of this model. Body fields are modelled as strings. A JSON `null` verification code would match a cleared code under `!==`. That case is not modelled.
- `generateVerificationCode` (`backend/utils/verificationCode.js`) is not part of this model. Its result is assumed to be a six-digit number, which Mongoose casts to a string.
- `Math.random` floating-point rounding is not modelled. The floor is taken over the reals.
- bcrypt salting and cost are not modelled. Two hashes of one password are equal here, although bcrypt's are not. Only `compare` is observable.
- Bcrypt.CompareRoundTrip: for a password that contains a NUL character it states only the clause for passwords of 72 bytes or more. The cyclic key does make such passwords collide with shorter ones, as `Bcrypt.ShortKeysCycle` shows, but the lemma does not list which.
- JavaScript strings with unpaired surrogates are not modelled. Characters are Unicode scalar values.
- Not modelled: JWT encoding, HMAC signing, `iat`, and the secret from `dotenv`. The clock is one integer in seconds. `moment` uses milliseconds, and jwt floors to seconds.
- Email sending is reduced to `delivered`. A failed send raises a 500 after the record was saved, which is kept. The mail is then not added to the outbox.
- Store failures other than the phone unique index are not modelled. In `verifyUser` such an error would also surface as 401.
- Concurrent read-modify-write on one record is not modelled. Each request is atomic.
- VerifyUserOn: states only that some record holding the submitted code changes. Which record depends on the driver, and `VerifyUser` names it for the intended driver.
- ResetPasswordOn: states only that some record changes. `ResetPassword` names it for the intended driver.
- ResendVerificationCodeOn: does not name the error of every guard. `ResendVerificationCode` does, for the intended driver.
- VerifyPasswordResetCode is modelled with the intended lookup only. Under Mongoose defaults it has the same session-token defect as `verifyUser` (third row of "## Findings"), since its lines repeat those of `verifyUser`.

## Findings

| source | as written | input that shows it | evidently intended | confidence | as-written member | corrected member |
|---|---|---|---|---|---|---|
| backend/controllers/authControllers.js:246 | `user.verificationExpires` is assigned, but `backend/models/user.js:9-15` declares no such path. A strict schema (Mongoose's default) does not persist it, so every later request reads it as undefined. | register, then two resends with the returned token at the same instant: both succeed and both mail a new code | the second resend within ten minutes is refused with "Please wait before requesting another code." | medium, not executed | AuthFindings.DeployedThrottleNeverFires | AuthScenarios.ResendThrottle |
| backend/controllers/authControllers.js:195-198 | `resetPassword` looks up `decoded.email` without checking it. A login session token carries `{ userId }`, so the filter is `{ email: undefined }`, which Mongoose treats as `{}` and answers with the first document. | a verified user logs in, then posts the seven-day session token and a new password of six or more characters to `/reset-password`: the first record's password is replaced | a token without an email claim resets nothing | medium, not executed | AuthFindings.DeployedSessionTokenResetsFirstAccount | AuthFindings.ResetTouchesOnlyClaimedAccount |
| backend/controllers/authControllers.js:69-72 | `verifyUser` looks up `decoded.email` the same way. A session token selects the first document. | a session token in the `Bearer` header with the first record's stored code marks the first record verified | a token without an email claim verifies nothing | medium, not executed | AuthFindings.DeployedSessionTokenVerifiesFirstAccount | AuthFindings.VerifyTouchesOnlyClaimedAccount |

=== FILE: auth_controllers.dfy ===
/**
 * The request handlers of the auth controller, each a pure transition from
 * the user collection to a new collection, a reply and at most one outgoing
 * email. Every handler is a guard chain ending in at most one `save`.
 * Inputs the controller takes from its environment are parameters: the
 * clock `now` (seconds), the value of Math.random(), the number
 * generateVerificationCode() returns, and whether the email service
 * accepted the message (`delivered`).
 */
module AuthControllers {
  import opened Wrappers
  import opened Bcrypt
  import opened Codes
  import opened Jwt
  import opened UserModel

  /** The error replies, one per failure the controller tells apart. The
      resend handler's "User not found." is the same failure as the other
      handlers' "User not found"; its "Invalid token." (400, the lenient
      check failed) is kept apart from the other handlers' "Invalid token"
      (401, a caught exception). */
  datatype Error =
    | UserExists          // "User already exists"
    | ServerError         // a thrown error caught by the outer handler (500)
    | InvalidTokenFormat  // "Invalid token format" (401)
    | InvalidToken        // "Invalid token" (401, verifyUser and its twin)
    | UserNotFound        // "User not found", and "User not found." in resend
    | InvalidCode         // "Invalid verification code"
    | InvalidCredentials  // "Invalid email or password"
    | NotVerified         // "Please verify your account first"
    | ResetTokenRequired  // "Reset token is required"
    | PasswordTooShort    // "Password must be at least 6 characters long"
    | InvalidResetToken   // "Invalid or expired reset token" (401)
    | NoTokenProvided     // "No token provided." (401)
    | MalformedToken      // "Invalid token." (400, resend only)
    | EmailNotInToken     // "Email not found in token."
    | AlreadyVerified     // "User is already verified."
    | TooSoon             // "Please wait before requesting another code."

  datatype Reply = Issued(token: Token) | Done | Failed(error: Error)

  /** sendVerificationEmail / sendResetPasswordEmail, as an outbox entry. */
  datatype Mail = VerificationMail(to: string, code: string) | ResetMail(to: string, code: string)

  datatype Step = Step(store: Store, reply: Reply, mail: Option<Mail>)

  /** The Authorization header: its first word and, when the second
      space-separated word is present and non-empty, the token it holds. */
  datatype AuthHeader = AuthHeader(scheme: string, credential: Option<Token>)

  datatype RegisterRequest = RegisterRequest(email: string, phone: Option<string>, password: string)

  datatype ResetRequest = ResetRequest(token: Option<Token>, newPassword: string)

  /** The claim of a `Bearer` header whose token passes jwt.verify. */
  function BearerClaim(auth: Option<AuthHeader>, now: int): Option<Claim>
  {
    if auth.Some? && auth.value.scheme == "Bearer" && auth.value.credential.Some?
    then Verify(auth.value.credential.value, now) else None
  }

  /** The email a valid bearer token names, if it names one. */
  function BearerEmail(auth: Option<AuthHeader>, now: int): Option<string>
  {
    match BearerClaim(auth, now)
    case Some(c) => EmailOf(c)
    case None => None
  }

  /** The value of `newPassword.length`: JavaScript counts UTF-16 code
      units, so a character outside the Basic Multilingual Plane counts twice. */
  function Utf16Length(s: string): (n: nat)
    ensures |s| <= n <= 2 * |s|
  {
    if s == [] then 0
    else (if s[0] as int >= 0x1_0000 then 2 else 1) + Utf16Length(s[1..])
  }

  /* ----- registerUser ----- */

  /** registerUser: refuses a known email; otherwise stores a new unverified
      record with the hashed password and a fresh six-digit code, mails the
      code and returns a ten-minute token for the email. A reused phone makes
      `save` throw on the unique index. A mail failure is reported as a
      server error, but the record stays. */
  function Register(st: Store, req: RegisterRequest, now: int, rnd: UnitInterval, delivered: bool): (s: Step)
    ensures req.email in st.users ==> s == Step(st, Failed(UserExists), None)
    ensures req.email !in st.users && PhoneTaken(st, req.phone) ==> s == Step(st, Failed(ServerError), None)
    ensures req.email !in st.users && !PhoneTaken(st, req.phone) ==>
      && s.store.users.Keys == st.users.Keys + {req.email}
      && (forall e :: e in st.users ==> s.store.users[e] == st.users[e])
      && s.store.nextId == st.nextId + 1
      && (st.first.Some? ==> s.store.first == st.first)
      && var a := s.store.users[req.email];
         && a.email == req.email && a.phone == req.phone && a.id == st.nextId
         && Compare(req.password, a.password)
         && !a.isVerified && a.verificationStatus == Unverified && a.verificationExpires.None?
         && a.verificationCode.Some? && IsCode(a.verificationCode.value)
         && (delivered ==> s.reply == Issued(Sign(EmailClaim(req.email), now, TenMinutes))
                           && s.mail == Some(VerificationMail(req.email, a.verificationCode.value)))
         && (!delivered ==> s.reply == Failed(ServerError) && s.mail.None?)
  {
    if req.email in st.users then Step(st, Failed(UserExists), None)
    else
      var code := CodeString(RandomCode(rnd));
      var token := Sign(EmailClaim(req.email), now, TenMinutes);
      if PhoneTaken(st, req.phone) then Step(st, Failed(ServerError), None)
      else
        var a := Account(st.nextId, req.email, req.phone, Hash(req.password),
                         false, Some(code), Unverified, None);
        var first := if st.first.None? then Some(req.email) else st.first;
        var st' := Store(st.users[req.email := a], first, st.nextId + 1);
        if delivered then Step(st', Issued(token), Some(VerificationMail(req.email, code)))
        else Step(st', Failed(ServerError), None)
  }

  /* ----- verifyUser and verifyPasswordResetCode ----- */

  /** verifyUser against a given persistence behaviour: a well-formed,
      genuine, unexpired bearer token names an email; when the stored code
      equals the submitted one the record becomes verified and its code is
      cleared, and nothing else changes. Every failure leaves the store alone. */
  function VerifyUserOn(drv: Driver, st: Store, auth: Option<AuthHeader>, code: string, now: int): (s: Step)
    ensures s.mail.None?
    ensures s.reply.Done? || s.reply.Failed?
    ensures s.reply.Failed? ==> s.store == st
    ensures s.reply.Done? ==> BearerClaim(auth, now).Some?
    ensures s.reply.Done? ==>
      exists k :: k in st.users && st.users[k].verificationCode == Some(code) &&
        s.store == Put(st, k, st.users[k].(isVerified := true, verificationCode := None))
    ensures (auth.None? || auth.value.scheme != "Bearer") ==> s.reply == Failed(InvalidTokenFormat)
    ensures auth.Some? && auth.value.scheme == "Bearer" && BearerClaim(auth, now).None? ==>
      s.reply == Failed(InvalidToken)
  {
    if auth.None? || auth.value.scheme != "Bearer" then Step(st, Failed(InvalidTokenFormat), None)
    else if auth.value.credential.None? then Step(st, Failed(InvalidToken), None)
    else match Verify(auth.value.credential.value, now)
      case None => Step(st, Failed(InvalidToken), None)
      case Some(claim) =>
        match FindOne(drv, st, EmailOf(claim))
        case None => Step(st, Failed(UserNotFound), None)
        case Some(k) =>
          var a := st.users[k];
          if a.verificationCode != Some(code) then Step(st, Failed(InvalidCode), None)
          else Step(Put(st, k, a.(isVerified := true, verificationCode := None)), Done, None)
  }

  /** verifyUser: succeeds exactly when the bearer token names an existing
      email whose stored code equals the submitted code; the success sets
      `isVerified` and clears the code of that record only. */
  function VerifyUser(st: Store, auth: Option<AuthHeader>, code: string, now: int): (s: Step)
    ensures s.mail.None?
    ensures s.reply.Done? <==>
      var e := BearerEmail(auth, now);
      e.Some? && e.value in st.users && st.users[e.value].verificationCode == Some(code)
    ensures s.reply.Done? ==>
      var e := BearerEmail(auth, now).value;
      s.store == Put(st, e, st.users[e].(isVerified := true, verificationCode := None))
    ensures !s.reply.Done? ==> s.store == st
    ensures (auth.None? || auth.value.scheme != "Bearer") ==> s.reply == Failed(InvalidTokenFormat)
    ensures auth.Some? && auth.value.scheme == "Bearer" && BearerClaim(auth, now).None? ==>
      s.reply == Failed(InvalidToken)
    ensures BearerClaim(auth, now).Some? && (BearerEmail(auth, now).None? || BearerEmail(auth, now).value !in st.users) ==>
      s.reply == Failed(UserNotFound)
    ensures
      (BearerEmail(auth, now).Some? && BearerEmail(auth, now).value in st.users &&
       st.users[BearerEmail(auth, now).value].verificationCode != Some(code)) ==>
      s.reply == Failed(InvalidCode)
  {
    VerifyUserOn(Intended, st, auth, code, now)
  }

  /** verifyPasswordResetCode, exported but not routed: written as a
      separate handler with the same guards and the same write as
      verifyUser, so a reset code marks the record verified. */
  function VerifyPasswordResetCode(st: Store, auth: Option<AuthHeader>, code: string, now: int): (s: Step)
    ensures s.mail.None?
    ensures s.reply.Done? <==>
      var e := BearerEmail(auth, now);
      e.Some? && e.value in st.users && st.users[e.value].verificationCode == Some(code)
    ensures s.reply.Done? ==>
      var e := BearerEmail(auth, now).value;
      e in s.store.users && s.store.users[e].isVerified && s.store.users[e].verificationCode.None?
    ensures s.reply.Done? ==>
      var e := BearerEmail(auth, now).value;
      e in st.users && s.store == Put(st, e, st.users[e].(isVerified := true, verificationCode := None))
    ensures !s.reply.Done? ==> s.store == st
  {
    if auth.None? || auth.value.scheme != "Bearer" then Step(st, Failed(InvalidTokenFormat), None)
    else if auth.value.credential.None? then Step(st, Failed(InvalidToken), None)
    else match Verify(auth.value.credential.value, now)
      case None => Step(st, Failed(InvalidToken), None)
      case Some(decoded) =>
        match FindOne(Intended, st, EmailOf(decoded))
        case None => Step(st, Failed(UserNotFound), None)
        case Some(k) =>
          if st.users[k].verificationCode != Some(code) then Step(st, Failed(InvalidCode), None)
          else
            var user := st.users[k].(isVerified := true, verificationCode := None);
            Step(st.(users := st.users[k := user]), Done, None)
  }

  /* ----- loginUser ----- */

  /** loginUser: never writes. An unknown email and a wrong password give
      the same error; a right password on an unverified record is refused;
      otherwise a seven-day session token for the record's ObjectId. */
  function Login(st: Store, email: string, password: string, now: int): (s: Step)
    ensures s.store == st && s.mail.None?
    ensures s.reply == Failed(InvalidCredentials) <==>
      email !in st.users || !Compare(password, st.users[email].password)
    ensures s.reply == Failed(NotVerified) <==>
      email in st.users && Compare(password, st.users[email].password) && !st.users[email].isVerified
    ensures s.reply.Issued? <==>
      email in st.users && Compare(password, st.users[email].password) && st.users[email].isVerified
    ensures s.reply.Issued? ==> s.reply.token == Sign(UserIdClaim(st.users[email].id), now, SevenDays)
  {
    match FindOne(Intended, st, Some(email))
    case None => Step(st, Failed(InvalidCredentials), None)
    case Some(k) =>
      var a := st.users[k];
      if !Compare(password, a.password) then Step(st, Failed(InvalidCredentials), None)
      else if !a.isVerified then Step(st, Failed(NotVerified), None)
      else Step(st, Issued(Sign(UserIdClaim(a.id), now, SevenDays)), None)
  }

  /* ----- forgotPassword ----- */

  /** forgotPassword: for a known email, overwrites the stored code with a
      fresh six-digit code (the only field written), mails it and returns a
      ten-minute token for the email. */
  function ForgotPassword(st: Store, email: string, now: int, rnd: UnitInterval, delivered: bool): (s: Step)
    ensures email !in st.users ==> s == Step(st, Failed(UserNotFound), None)
    ensures email in st.users ==>
      && s.store.users.Keys == st.users.Keys
      && s.store.first == st.first && s.store.nextId == st.nextId
      && (forall e :: e in st.users && e != email ==> s.store.users[e] == st.users[e])
      && var a := s.store.users[email];
         && a.verificationCode.Some? && IsCode(a.verificationCode.value)
         && a == st.users[email].(verificationCode := a.verificationCode)
         && (delivered ==> s.reply == Issued(Sign(EmailClaim(email), now, TenMinutes))
                           && s.mail == Some(ResetMail(email, a.verificationCode.value)))
         && (!delivered ==> s.reply == Failed(ServerError) && s.mail.None?)
  {
    match FindOne(Intended, st, Some(email))
    case None => Step(st, Failed(UserNotFound), None)
    case Some(k) =>
      var token := Sign(EmailClaim(email), now, TenMinutes);
      var code := CodeString(RandomCode(rnd));
      var st' := Put(st, k, st.users[k].(verificationCode := Some(code)));
      if delivered then Step(st', Issued(token), Some(ResetMail(email, code)))
      else Step(st', Failed(ServerError), None)
  }

  /* ----- resetPassword ----- */

  /** resetPassword against a given persistence behaviour. Guards in order:
      a token is present, the new password has at least six UTF-16 units,
      the token is genuine and unexpired, the looked-up user exists. The
      write replaces the password hash and clears the code; no code is
      compared and `isVerified` is kept. */
  function ResetPasswordOn(drv: Driver, st: Store, req: ResetRequest, now: int): (s: Step)
    ensures s.mail.None?
    ensures s.reply.Done? || s.reply.Failed?
    ensures s.reply.Failed? ==> s.store == st
    ensures req.token.None? ==> s.reply == Failed(ResetTokenRequired)
    ensures req.token.Some? && Utf16Length(req.newPassword) < 6 ==> s.reply == Failed(PasswordTooShort)
    ensures req.token.Some? && Utf16Length(req.newPassword) >= 6 && Verify(req.token.value, now).None? ==>
      s.reply == Failed(InvalidResetToken)
    ensures s.reply.Done? ==>
      exists k :: k in st.users &&
        s.store == Put(st, k, st.users[k].(password := Hash(req.newPassword), verificationCode := None))
  {
    if req.token.None? then Step(st, Failed(ResetTokenRequired), None)
    else if Utf16Length(req.newPassword) < 6 then Step(st, Failed(PasswordTooShort), None)
    else match Verify(req.token.value, now)
      case None => Step(st, Failed(InvalidResetToken), None)
      case Some(claim) =>
        match FindOne(drv, st, EmailOf(claim))
        case None => Step(st, Failed(UserNotFound), None)
        case Some(k) =>
          Step(Put(st, k, st.users[k].(password := Hash(req.newPassword), verificationCode := None)), Done, None)
  }

  /** The email a reset request's token names, when the token is present,
      genuine and unexpired. */
  function ResetEmail(req: ResetRequest, now: int): Option<string>
  {
    if req.token.Some? && Verify(req.token.value, now).Some?
    then EmailOf(Verify(req.token.value, now).value) else None
  }

  /** resetPassword: succeeds exactly when the token is present, the new
      password is long enough and the token names an existing email; only
      that record's password hash and code change. */
  function ResetPassword(st: Store, req: ResetRequest, now: int): (s: Step)
    ensures s.mail.None?
    ensures s.reply.Done? <==>
      Utf16Length(req.newPassword) >= 6 && ResetEmail(req, now).Some? && ResetEmail(req, now).value in st.users
    ensures s.reply.Done? ==>
      var e := ResetEmail(req, now).value;
      s.store == Put(st, e, st.users[e].(password := Hash(req.newPassword), verificationCode := None))
    ensures !s.reply.Done? ==> s.store == st
    ensures req.token.None? ==> s.reply == Failed(ResetTokenRequired)
    ensures req.token.Some? && Utf16Length(req.newPassword) < 6 ==> s.reply == Failed(PasswordTooShort)
    ensures req.token.Some? && Utf16Length(req.newPassword) >= 6 && Verify(req.token.value, now).None? ==>
      s.reply == Failed(InvalidResetToken)
    ensures
      (req.token.Some? && Utf16Length(req.newPassword) >= 6 && Verify(req.token.value, now).Some? &&
       (ResetEmail(req, now).None? || ResetEmail(req, now).value !in st.users)) ==>
      s.reply == Failed(UserNotFound)
  {
    ResetPasswordOn(Intended, st, req, now)
  }

  /* ----- resendVerificationCode ----- */

  /** The token of any Authorization header with a second word: the resend
      handler does not check the `Bearer` scheme. */
  function HeaderToken(auth: Option<AuthHeader>): Option<Token>
  {
    if auth.Some? then auth.value.credential else None
  }

  /** resendVerificationCode against a given persistence behaviour. The token
      may be expired but not forged; it must carry a non-empty email of an
      existing, unverified record whose throttle window has closed. Then a
      new code is stored, the throttle window is set to ten minutes from
      now, the code is mailed and a fifteen-minute token is returned. */
  function ResendVerificationCodeOn(drv: Driver, st: Store, auth: Option<AuthHeader>, now: int,
                                    otp: SixDigit, delivered: bool): (s: Step)
    ensures s.reply.Issued? || s.reply.Failed?
    ensures s.reply.Failed? && s.reply.error != ServerError ==> s.store == st && s.mail.None?
    ensures HeaderToken(auth).None? ==> s.reply == Failed(NoTokenProvided)
    ensures HeaderToken(auth).Some? && !HeaderToken(auth).value.genuine ==> s.reply == Failed(MalformedToken)
    ensures
      (ResendEmail(auth).Some? && ResendEmail(auth).value in st.users &&
       !st.users[ResendEmail(auth).value].isVerified &&
       (st.users[ResendEmail(auth).value].verificationExpires.None? ||
        st.users[ResendEmail(auth).value].verificationExpires.value <= now)) ==>
      var e := ResendEmail(auth).value;
      var a := st.users[e];
      && s.store == Put(st, e, SetExpiry(drv, a.(verificationCode := Some(CodeString(otp))), now + TenMinutes))
      && (delivered ==> s.reply == Issued(Sign(EmailClaim(a.email), now, FifteenMinutes))
                        && s.mail == Some(VerificationMail(a.email, CodeString(otp))))
      && (!delivered ==> s.reply == Failed(ServerError) && s.mail.None?)
    ensures s.reply.Issued? || s.reply == Failed(ServerError) ==>
      var t := HeaderToken(auth).value;
      && t.genuine && t.claim.EmailClaim? && t.claim.email in st.users
      && var a := st.users[t.claim.email];
         && !a.isVerified
         && (a.verificationExpires.None? || a.verificationExpires.value <= now)
         && s.store == Put(st, t.claim.email, SetExpiry(drv, a.(verificationCode := Some(CodeString(otp))), now + TenMinutes))
         && (s.reply.Issued? <==> delivered)
         && (delivered ==> s.reply.token == Sign(EmailClaim(a.email), now, FifteenMinutes)
                           && s.mail == Some(VerificationMail(a.email, CodeString(otp))))
  {
    var token := HeaderToken(auth);
    if token.None? then Step(st, Failed(NoTokenProvided), None)
    else match VerifyIgnoringExpiration(token.value)
      case None => Step(st, Failed(MalformedToken), None)
      case Some(claim) =>
        var email := EmailOf(claim);
        if email.None? || email.value == "" then Step(st, Failed(EmailNotInToken), None)
        else match FindOne(drv, st, email)
          case None => Step(st, Failed(UserNotFound), None)
          case Some(k) =>
            var a := st.users[k];
            if a.isVerified then Step(st, Failed(AlreadyVerified), None)
            else if a.verificationExpires.Some? && a.verificationExpires.value > now then
              Step(st, Failed(TooSoon), None)
            else
              var code := CodeString(otp);
              var st' := Put(st, k, SetExpiry(drv, a.(verificationCode := Some(code)), now + TenMinutes));
              var renewed := Sign(EmailClaim(a.email), now, FifteenMinutes);
              if delivered then Step(st', Issued(renewed), Some(VerificationMail(a.email, code)))
              else Step(st', Failed(ServerError), None)
  }

  /** The non-empty email a genuine (possibly expired) header token names. */
  function ResendEmail(auth: Option<AuthHeader>): Option<string>
  {
    var t := HeaderToken(auth);
    if t.Some? && t.value.genuine && t.value.claim.EmailClaim? && t.value.claim.email != ""
    then Some(t.value.claim.email) else None
  }

  /** resendVerificationCode with the throttle field persisted: each guard's
      error, the throttle refusing exactly while the stored expiry is in the
      future, and on success a new code and a ten-minute window stored. */
  function ResendVerificationCode(st: Store, auth: Option<AuthHeader>, now: int, otp: SixDigit, delivered: bool): (s: Step)
    ensures HeaderToken(auth).None? ==> s.reply == Failed(NoTokenProvided)
    ensures HeaderToken(auth).Some? && !HeaderToken(auth).value.genuine ==> s.reply == Failed(MalformedToken)
    ensures HeaderToken(auth).Some? && HeaderToken(auth).value.genuine && ResendEmail(auth).None? ==>
      s.reply == Failed(EmailNotInToken)
    ensures ResendEmail(auth).Some? && ResendEmail(auth).value !in st.users ==> s.reply == Failed(UserNotFound)
    ensures ResendEmail(auth).Some? && ResendEmail(auth).value in st.users && st.users[ResendEmail(auth).value].isVerified ==>
      s.reply == Failed(AlreadyVerified)
    ensures s.reply == Failed(TooSoon) <==>
      var e := ResendEmail(auth);
      && e.Some? && e.value in st.users
      && !st.users[e.value].isVerified
      && st.users[e.value].verificationExpires.Some?
      && st.users[e.value].verificationExpires.value > now
    ensures
      (ResendEmail(auth).Some? && ResendEmail(auth).value in st.users &&
       !st.users[ResendEmail(auth).value].isVerified &&
       (st.users[ResendEmail(auth).value].verificationExpires.None? ||
        st.users[ResendEmail(auth).value].verificationExpires.value <= now)) ==>
      var e := ResendEmail(auth).value;
      var a := st.users[e];
      && s.store == Put(st, e, a.(verificationCode := Some(CodeString(otp)), verificationExpires := Some(now + TenMinutes)))
      && (delivered ==> s.reply == Issued(Sign(EmailClaim(a.email), now, FifteenMinutes))
                        && s.mail == Some(VerificationMail(a.email, CodeString(otp))))
      && (!delivered ==> s.reply == Failed(ServerError) && s.mail.None?)
    ensures s.reply.Issued? || s.reply == Failed(ServerError) ==>
      && ResendEmail(auth).Some?
      && var e := ResendEmail(auth).value;
      && e in st.users && e in s.store.users
      && s.store.users[e].verificationExpires == Some(now + TenMinutes)
      && s.store.users[e].verificationCode == Some(CodeString(otp))
    ensures s.reply.Failed? && s.reply.error != ServerError ==> s.store == st && s.mail.None?
  {
    ResendVerificationCodeOn(Intended, st, auth, now, otp, delivered)
  }
}

=== FILE: auth_findings.dfy ===
/**
 * Two places where the controller, run under Mongoose's defaults
 * (`Deployed`), does not do what it is evidently written to do, each next
 * to the property the model (`Intended`) has instead.
 *
 * 1. The resend throttle writes `verificationExpires`, which the schema does
 *    not declare; a strict schema does not persist it, so the throttle never
 *    fires.
 * 2. resetPassword and verifyUser read `decoded.email` without checking it;
 *    for a login session token (a `userId` claim) it is undefined, and
 *    `findOne({ email: undefined })` returns the first document.
 */
module AuthFindings {
  import opened Wrappers
  import opened Bcrypt
  import opened Codes
  import opened Jwt
  import opened UserModel
  import opened AuthControllers
  import opened AuthScenarios

  /* ----- 1. the resend throttle ----- */

  /** No record carries a throttle expiry. */
  predicate NoExpiries(st: Store)
  {
    forall e :: e in st.users ==> st.users[e].verificationExpires.None?
  }

  /** As deployed, a resend never answers "Please wait", and leaves every
      record without a throttle expiry for the next request. Registration
      creates records without one, so the throttle never fires. */
  lemma DeployedThrottleNeverFires(st: Store, auth: Option<AuthHeader>, now: int, otp: SixDigit, delivered: bool)
    requires NoExpiries(st)
    ensures ResendVerificationCodeOn(Deployed, st, auth, now, otp, delivered).reply != Failed(TooSoon)
    ensures NoExpiries(ResendVerificationCodeOn(Deployed, st, auth, now, otp, delivered).store)
  {
  }

  /** Two resends with the same token at the same instant for a new record:
      as deployed both succeed; as intended the second is refused. */
  lemma ResendTwiceAtOnce(st: Store, tok: Token, now: int, otp1: SixDigit, otp2: SixDigit)
    requires Wf(st) && NoExpiries(st)
    requires tok.genuine && tok.claim.EmailClaim? && tok.claim.email != ""
    requires tok.claim.email in st.users && !st.users[tok.claim.email].isVerified
    ensures
      var d1 := ResendVerificationCodeOn(Deployed, st, Bearer(tok), now, otp1, true);
      && d1.reply.Issued?
      && ResendVerificationCodeOn(Deployed, d1.store, Bearer(tok), now, otp2, true).reply.Issued?
    ensures
      var i1 := ResendVerificationCode(st, Bearer(tok), now, otp1, true);
      && i1.reply.Issued?
      && ResendVerificationCode(i1.store, Bearer(tok), now, otp2, true).reply == Failed(TooSoon)
  {
  }

  /* ----- 2. tokens without an email claim ----- */

  /** The session token login issues to any user. */
  function SessionToken(st: Store, email: string, password: string, now: int): Token
    requires Login(st, email, password, now).reply.Issued?
  {
    Login(st, email, password, now).reply.token
  }

  /** As deployed, any user who can log in can set the password of the
      first record in the collection, by presenting their session token as
      a reset token. As intended, the same request changes nothing. */
  lemma DeployedSessionTokenResetsFirstAccount(st: Store, email: string, password: string, t0: int,
                                               now: int, newPassword: string)
    requires Wf(st)
    requires Login(st, email, password, t0).reply.Issued?
    requires t0 <= now < t0 + SevenDays && Utf16Length(newPassword) >= 6
    ensures
      var req := ResetRequest(Some(SessionToken(st, email, password, t0)), newPassword);
      var s := ResetPasswordOn(Deployed, st, req, now);
      && st.first.Some?
      && s.reply == Done
      && s.store.users[st.first.value].password == Hash(newPassword)
    ensures
      var req := ResetRequest(Some(SessionToken(st, email, password, t0)), newPassword);
      ResetPassword(st, req, now) == Step(st, Failed(UserNotFound), None)
  {
  }

  /** As intended, a reset changes at most the record named by the token's
      email claim, so a session token never resets anything. */
  lemma ResetTouchesOnlyClaimedAccount(st: Store, req: ResetRequest, now: int, e: string)
    requires e in st.users
    requires ResetEmail(req, now) != Some(e)
    ensures var s := ResetPassword(st, req, now); e in s.store.users && s.store.users[e] == st.users[e]
    ensures req.token.Some? && req.token.value.claim.UserIdClaim? ==> ResetPassword(st, req, now).store == st
  {
  }

  /** As deployed, a session token together with the first record's code
      verifies the first record. As intended, it is refused. */
  lemma DeployedSessionTokenVerifiesFirstAccount(st: Store, email: string, password: string, t0: int,
                                                 now: int, code: string)
    requires Wf(st)
    requires Login(st, email, password, t0).reply.Issued?
    requires t0 <= now < t0 + SevenDays
    requires st.first.Some? && st.users[st.first.value].verificationCode == Some(code)
    ensures
      var s := VerifyUserOn(Deployed, st, Bearer(SessionToken(st, email, password, t0)), code, now);
      s.reply == Done && s.store.users[st.first.value].isVerified
    ensures
      VerifyUser(st, Bearer(SessionToken(st, email, password, t0)), code, now) == Step(st, Failed(UserNotFound), None)
  {
  }

  /** As intended, a verification changes at most the record named by the
      bearer token's email claim. */
  lemma VerifyTouchesOnlyClaimedAccount(st: Store, auth: Option<AuthHeader>, code: string, now: int, e: string)
    requires e in st.users
    requires BearerEmail(auth, now) != Some(e)
    ensures var s := VerifyUser(st, auth, code, now); e in s.store.users && s.store.users[e] == st.users[e]
  {
  }
}

=== FILE: auth_invariants.dfy ===
/**
 * Invariants every handler keeps, lifted to runs of requests: the user
 * collection stays well formed, records are never removed, and a verified
 * record never becomes unverified. A record becomes verified only through
 * a verify request that presents the code stored for it.
 */
module AuthInvariants {
  import opened Wrappers
  import opened Bcrypt
  import opened Codes
  import opened Jwt
  import opened UserModel
  import opened AuthControllers
  import opened AuthRoutes

  /** Records are never removed, keep their ObjectId, and stay verified once verified. */
  predicate Grows(st: Store, st': Store)
  {
    forall e :: e in st.users ==>
      && e in st'.users
      && st'.users[e].id == st.users[e].id
      && (st.users[e].isVerified ==> st'.users[e].isVerified)
  }

  lemma GrowsTransitive(a: Store, b: Store, c: Store)
    requires Grows(a, b) && Grows(b, c)
    ensures Grows(a, c)
  {
  }

  lemma RegisterPreservesWf(st: Store, r: RegisterRequest, now: int, rnd: UnitInterval, delivered: bool)
    requires Wf(st)
    ensures Wf(Register(st, r, now, rnd, delivered).store)
  {
  }

  /** Rewriting one record without touching its email, ObjectId, phone or
      status, and with a six-digit code or none, keeps the collection well formed. */
  lemma PutPreservesWf(st: Store, k: string, a: Account)
    requires Wf(st) && k in st.users
    requires a.email == st.users[k].email && a.id == st.users[k].id && a.phone == st.users[k].phone
    requires a.verificationStatus == st.users[k].verificationStatus
    requires a.verificationCode.Some? ==> IsCode(a.verificationCode.value)
    ensures Wf(Put(st, k, a))
  {
  }

  lemma ApplyPreservesWf(st: Store, req: Request, env: Env)
    requires Wf(st)
    ensures Wf(Apply(st, req, env).store)
  {
    var s := Apply(st, req, env);
    match req
    case RegisterCall(r) =>
      RegisterPreservesWf(st, r, env.now, env.rnd, env.delivered);
    case VerifyCall(auth, code) =>
      if s.reply.Done? {
        var e := BearerEmail(auth, env.now).value;
        PutPreservesWf(st, e, st.users[e].(isVerified := true, verificationCode := None));
      }
    case LoginCall(_, _) =>
    case ForgotCall(email) =>
      if email in st.users {
        PutPreservesWf(st, email, s.store.users[email]);
        assert s.store == Put(st, email, s.store.users[email]);
      }
    case ResetCall(r) =>
      if s.reply.Done? {
        var e := ResetEmail(r, env.now).value;
        PutPreservesWf(st, e, st.users[e].(password := Hash(r.newPassword), verificationCode := None));
      }
    case ResendCall(auth) =>
      if s.reply.Issued? || s.reply == Failed(ServerError) {
        var e := HeaderToken(auth).value.claim.email;
        var a := st.users[e];
        var code := CodeString(env.otp);
        PutPreservesWf(st, e, SetExpiry(Intended, a.(verificationCode := Some(code)), env.now + TenMinutes));
      }
  }

  lemma ApplyGrows(st: Store, req: Request, env: Env)
    ensures Grows(st, Apply(st, req, env).store)
  {
  }

  /** Every run from a well-formed collection ends in a well-formed one. */
  lemma {:induction false} RunPreservesWf(st: Store, events: seq<Event>)
    requires Wf(st)
    ensures Wf(Run(st, events))
    decreases |events|
  {
    if events != [] {
      ApplyPreservesWf(st, events[0].request, events[0].env);
      RunPreservesWf(Apply(st, events[0].request, events[0].env).store, events[1..]);
    }
  }

  /** No run removes a record or turns a verified record back to unverified. */
  lemma {:induction false} RunGrows(st: Store, events: seq<Event>)
    ensures Grows(st, Run(st, events))
    decreases |events|
  {
    if events != [] {
      var st1 := Apply(st, events[0].request, events[0].env).store;
      ApplyGrows(st, events[0].request, events[0].env);
      RunGrows(st1, events[1..]);
      GrowsTransitive(st, st1, Run(st1, events[1..]));
    }
  }

  /** A single request verifies a record only when it is a verify request
      whose bearer token names that record and whose code is the stored one. */
  lemma VerificationNeedsStoredCode(st: Store, req: Request, env: Env, e: string)
    requires e in Apply(st, req, env).store.users && Apply(st, req, env).store.users[e].isVerified
    requires e !in st.users || !st.users[e].isVerified
    ensures req.VerifyCall? && BearerEmail(req.auth, env.now) == Some(e)
    ensures e in st.users && st.users[e].verificationCode == Some(req.code)
  {
    var s := Apply(st, req, env);
    match req
    case RegisterCall(r) =>
    case VerifyCall(auth, code) =>
    case LoginCall(_, _) =>
    case ForgotCall(email) =>
    case ResetCall(r) =>
    case ResendCall(auth) =>
  }

  /** Step `i` of a run is a verify request naming `e` that presents the
      code stored for `e` just before it. */
  predicate VerifiedBy(st: Store, events: seq<Event>, i: nat, e: string)
    requires i < |events|
  {
    var before := Run(st, events[..i]);
    && events[i].request.VerifyCall?
    && BearerEmail(events[i].request.auth, events[i].env.now) == Some(e)
    && e in before.users
    && before.users[e].verificationCode == Some(events[i].request.code)
  }

  /** Across a whole run, a record that ends verified but did not start so
      was verified by a step that presented its stored code. */
  lemma {:induction false} RunVerificationNeedsStoredCode(st: Store, events: seq<Event>, e: string)
    requires e in Run(st, events).users && Run(st, events).users[e].isVerified
    requires e !in st.users || !st.users[e].isVerified
    ensures exists i: nat :: i < |events| && VerifiedBy(st, events, i, e)
    decreases |events|
  {
    assert events != [];
    var ev := events[0];
    var st1 := Apply(st, ev.request, ev.env).store;
    assert events[..0] == [];
    if e in st1.users && st1.users[e].isVerified {
      VerificationNeedsStoredCode(st, ev.request, ev.env, e);
      assert VerifiedBy(st, events, 0, e);
    } else {
      RunVerificationNeedsStoredCode(st1, events[1..], e);
      var j: nat :| j < |events[1..]| && VerifiedBy(st1, events[1..], j, e);
      var prefix := events[..j + 1];
      assert prefix[0] == ev && prefix[1..] == events[1..][..j];
      assert Run(st, prefix) == Run(st1, events[1..][..j]);
      assert VerifiedBy(st, events, j + 1, e);
    }
  }
}

=== FILE: auth_routes.dfy ===
/**
 * The routed auth endpoints as one request type, and runs of requests over
 * the user collection. Each request is handled atomically.
 */
module AuthRoutes {
  import opened Wrappers
  import opened Codes
  import opened UserModel
  import opened AuthControllers

  /** POST /register, /verify-otp, /login, /forgot-password,
      /reset-password and /resend-otp. */
  datatype Request =
    | RegisterCall(registration: RegisterRequest)
    | VerifyCall(auth: Option<AuthHeader>, code: string)
    | LoginCall(email: string, password: string)
    | ForgotCall(email: string)
    | ResetCall(reset: ResetRequest)
    | ResendCall(auth: Option<AuthHeader>)

  /** What the environment supplies to one request: the clock, the value of
      Math.random(), the number generateVerificationCode() returns, and
      whether the email service accepted the message. */
  datatype Env = Env(now: int, rnd: UnitInterval, otp: SixDigit, delivered: bool)

  datatype Event = Event(request: Request, env: Env)

  function Apply(st: Store, req: Request, env: Env): Step
  {
    match req
    case RegisterCall(r) => Register(st, r, env.now, env.rnd, env.delivered)
    case VerifyCall(auth, code) => VerifyUser(st, auth, code, env.now)
    case LoginCall(email, password) => Login(st, email, password, env.now)
    case ForgotCall(email) => ForgotPassword(st, email, env.now, env.rnd, env.delivered)
    case ResetCall(r) => ResetPassword(st, r, env.now)
    case ResendCall(auth) => ResendVerificationCode(st, auth, env.now, env.otp, env.delivered)
  }

  /** The collection after handling `events` in order. */
  function Run(st: Store, events: seq<Event>): Store
    decreases |events|
  {
    if events == [] then st
    else Run(Apply(st, events[0].request, events[0].env).store, events[1..])
  }
}

=== FILE: auth_scenarios.dfy ===
/**
 * Multi-request properties of the auth flows: registration, verification
 * and login; the resend throttle; password reset; and the ways tokens and
 * codes minted for one flow are accepted by another.
 */
module AuthScenarios {
  import opened Wrappers
  import opened Bcrypt
  import opened Codes
  import opened Jwt
  import opened UserModel
  import opened AuthControllers

  /** The Authorization header `Bearer <t>`. */
  function Bearer(t: Token): Option<AuthHeader>
  {
    Some(AuthHeader("Bearer", Some(t)))
  }

  /** A fresh registration's password is accepted, but login is refused
      until the record is verified. */
  lemma LoginBeforeVerification(st: Store, r: RegisterRequest, now: int, rnd: UnitInterval,
                                delivered: bool, later: int)
    requires r.email !in st.users && !PhoneTaken(st, r.phone)
    ensures Login(Register(st, r, now, rnd, delivered).store, r.email, r.password, later).reply == Failed(NotVerified)
  {
  }

  /** Register, then verify with the mailed code inside the token's ten
      minutes: a wrong code is refused without effect, the right code
      verifies, the cleared code cannot be used again, and login then
      issues a seven-day session token. */
  lemma RegisterVerifyLogin(st: Store, r: RegisterRequest, t0: int, rnd: UnitInterval,
                            t1: int, t2: int, wrong: string)
    requires r.email !in st.users && !PhoneTaken(st, r.phone)
    requires t0 <= t1 < t0 + TenMinutes
    ensures
      var s1 := Register(st, r, t0, rnd, true);
      && s1.reply.Issued? && s1.mail.Some?
      && var code := s1.mail.value.code;
         var auth := Bearer(s1.reply.token);
         && (wrong != code ==> VerifyUser(s1.store, auth, wrong, t1) == Step(s1.store, Failed(InvalidCode), None))
         && var s2 := VerifyUser(s1.store, auth, code, t1);
            && s2.reply == Done
            && s2.store.users[r.email].isVerified
            && VerifyUser(s2.store, auth, code, t1) == Step(s2.store, Failed(InvalidCode), None)
            && Login(s2.store, r.email, r.password, t2).reply
               == Issued(Sign(UserIdClaim(st.nextId), t2, SevenDays))
  {
  }

  /** The registration token expires after ten minutes: verifying with it
      later is refused as an invalid token, whatever the code. */
  lemma RegistrationTokenExpires(st: Store, r: RegisterRequest, t0: int, rnd: UnitInterval, t1: int, code: string)
    requires r.email !in st.users && !PhoneTaken(st, r.phone)
    requires t1 >= t0 + TenMinutes
    ensures
      var s1 := Register(st, r, t0, rnd, true);
      s1.reply.Issued? &&
      VerifyUser(s1.store, Bearer(s1.reply.token), code, t1) == Step(s1.store, Failed(InvalidToken), None)
  {
  }

  /** After a successful resend, a second resend inside the ten-minute
      window is refused without effect; once the window has closed it
      succeeds, and the code from the first resend still verifies only if
      the new random number happens to equal the old one. */
  lemma ResendThrottle(st: Store, auth: Option<AuthHeader>, t1: int, otp1: SixDigit,
                       t2: int, otp2: SixDigit, delivered: bool)
    requires Wf(st)
    requires ResendVerificationCode(st, auth, t1, otp1, true).reply.Issued?
    ensures
      var s1 := ResendVerificationCode(st, auth, t1, otp1, true);
      t2 < t1 + TenMinutes ==>
        ResendVerificationCode(s1.store, auth, t2, otp2, delivered) == Step(s1.store, Failed(TooSoon), None)
    ensures
      var s1 := ResendVerificationCode(st, auth, t1, otp1, true);
      var s2 := ResendVerificationCode(s1.store, auth, t2, otp2, true);
      t2 >= t1 + TenMinutes ==>
        && s2.reply.Issued?
        && (forall t :: VerifyUser(s2.store, Bearer(s2.reply.token), CodeString(otp1), t).reply.Done? ==> otp1 == otp2)
  {
  }

  /** Resetting with a valid token for a verified record replaces the
      credential: the new password logs in, and the old one is refused
      exactly when bcrypt keys it differently from the new one. */
  lemma ResetThenLogin(st: Store, tok: Token, oldPassword: string, newPassword: string, now: int, later: int)
    requires tok.genuine && tok.claim.EmailClaim? && now < tok.exp
    requires tok.claim.email in st.users && st.users[tok.claim.email].isVerified
    requires Compare(oldPassword, st.users[tok.claim.email].password)
    requires Utf16Length(newPassword) >= 6
    ensures
      var e := tok.claim.email;
      var s := ResetPassword(st, ResetRequest(Some(tok), newPassword), now);
      && s.reply == Done
      && (Login(s.store, e, oldPassword, later).reply == Failed(InvalidCredentials) <==> Key(newPassword) != Key(oldPassword))
      && (Key(newPassword) == Key(oldPassword) ==> Login(s.store, e, oldPassword, later).reply.Issued?)
      && Login(s.store, e, newPassword, later).reply.Issued?
  {
  }

  /** The recovery flow: the token forgotPassword returns lets resetPassword
      succeed within ten minutes, and the reset clears the mailed code. */
  lemma ForgotThenReset(st: Store, email: string, t0: int, rnd: UnitInterval, t1: int, newPassword: string)
    requires email in st.users
    requires t0 <= t1 < t0 + TenMinutes && Utf16Length(newPassword) >= 6
    ensures
      var s1 := ForgotPassword(st, email, t0, rnd, true);
      && s1.reply.Issued?
      && var s2 := ResetPassword(s1.store, ResetRequest(Some(s1.reply.token), newPassword), t1);
         && s2.reply == Done
         && s2.store.users[email].password == Hash(newPassword)
         && s2.store.users[email].verificationCode.None?
         && s2.store.users[email].isVerified == st.users[email].isVerified
  {
  }

  /** Tokens carry no purpose: the token returned by registration resets the
      password of the record it created, with no code presented. */
  lemma RegistrationTokenResetsPassword(st: Store, r: RegisterRequest, t0: int, rnd: UnitInterval,
                                        t1: int, newPassword: string)
    requires r.email !in st.users && !PhoneTaken(st, r.phone)
    requires t0 <= t1 < t0 + TenMinutes && Utf16Length(newPassword) >= 6
    ensures
      var s1 := Register(st, r, t0, rnd, true);
      && s1.reply.Issued?
      && var s2 := ResetPassword(s1.store, ResetRequest(Some(s1.reply.token), newPassword), t1);
         && s2.reply == Done
         && Compare(newPassword, s2.store.users[r.email].password)
  {
  }

  /** Reset and verification share one code field: the code and token that
      forgotPassword mails and returns verify an unverified record. */
  lemma ResetCodeAlsoVerifies(st: Store, email: string, t0: int, rnd: UnitInterval, t1: int)
    requires email in st.users && !st.users[email].isVerified
    requires t0 <= t1 < t0 + TenMinutes
    ensures
      var s1 := ForgotPassword(st, email, t0, rnd, true);
      && s1.reply.Issued? && s1.mail.Some?
      && var s2 := VerifyUser(s1.store, Bearer(s1.reply.token), s1.mail.value.code, t1);
         && s2.reply == Done
         && s2.store.users[email].isVerified
  {
  }

  /** The unrouted verifyPasswordResetCode, written out separately, gives
      the same reply and the same collection as verifyUser on every input. */
  lemma ResetCodeVerifierMatchesVerifyUser(st: Store, auth: Option<AuthHeader>, code: string, now: int)
    ensures VerifyPasswordResetCode(st, auth, code, now) == VerifyUser(st, auth, code, now)
  {
  }

  /** bcrypt ignores everything after the first 72 UTF-8 bytes: after a
      reset from `p + x` to `p + y`, where `p` alone fills those bytes, the
      old password still logs in. */
  lemma ResetKeepsLongPasswordTwin(st: Store, tok: Token, p: string, x: string, y: string, now: int, later: int)
    requires tok.genuine && tok.claim.EmailClaim? && now < tok.exp
    requires tok.claim.email in st.users && st.users[tok.claim.email].isVerified
    requires |Utf8(p)| >= 72
    ensures
      var s := ResetPassword(st, ResetRequest(Some(tok), p + y), now);
      && s.reply == Done
      && Login(s.store, tok.claim.email, p + x, later).reply.Issued?
  {
    LongPasswordsShareDigest(p, x, y);
    assert ResetEmail(ResetRequest(Some(tok), p + y), now) == Some(tok.claim.email);
  }
}

=== FILE: bcrypt.dfy ===
/**
 * Password hashing with bcryptjs, as the controller calls bcrypt.hash and
 * bcrypt.compare. The salt and the cost factor 10 are abstracted away. The
 * key bcrypt hashes is kept exact: the password's UTF-8 bytes followed by a
 * NUL, read cyclically until 72 bytes are taken.
 */
module Bcrypt {

  type Byte = b: int | 0 <= b < 0x100

  /** The UTF-8 encoding of one character. */
  function EncodeChar(c: char): (bs: seq<Byte>)
    ensures 1 <= |bs| <= 4
  {
    var cp := c as int;
    if cp < 0x80 then [cp]
    else if cp < 0x800 then [0xC0 + cp / 0x40, 0x80 + cp % 0x40]
    else if cp < 0x1_0000 then [0xE0 + cp / 0x1000, 0x80 + (cp / 0x40) % 0x40, 0x80 + cp % 0x40]
    else [0xF0 + cp / 0x4_0000, 0x80 + (cp / 0x1000) % 0x40, 0x80 + (cp / 0x40) % 0x40, 0x80 + cp % 0x40]
  }

  /** The number of bytes a UTF-8 sequence has, read from its first byte. */
  function LeadLength(b: Byte): nat
  {
    if b < 0x80 then 1 else if b < 0xE0 then 2 else if b < 0xF0 then 3 else 4
  }

  /** The code point a complete UTF-8 sequence stands for. */
  function DecodeChar(bs: seq<Byte>): int
    requires 1 <= |bs| <= 4
  {
    var b: seq<int> := bs;
    if |b| == 1 then b[0]
    else if |b| == 2 then (b[0] - 0xC0) * 0x40 + (b[1] - 0x80)
    else if |b| == 3 then (b[0] - 0xE0) * 0x1000 + (b[1] - 0x80) * 0x40 + (b[2] - 0x80)
    else (b[0] - 0xF0) * 0x4_0000 + (b[1] - 0x80) * 0x1000 + (b[2] - 0x80) * 0x40 + (b[3] - 0x80)
  }

  /** The first byte of a character's encoding says how long it is, and the
      encoding decodes back to the character. */
  lemma EncodeCharDecodes(c: char)
    ensures LeadLength(EncodeChar(c)[0]) == |EncodeChar(c)|
    ensures DecodeChar(EncodeChar(c)) == c as int
  {
    var cp := c as int;
    if cp < 0x80 {
    } else if cp < 0x800 {
      assert (cp / 0x40) * 0x40 + cp % 0x40 == cp;
    } else if cp < 0x1_0000 {
      assert (cp / 0x40) * 0x40 + cp % 0x40 == cp;
      assert (cp / 0x1000) * 0x40 + (cp / 0x40) % 0x40 == cp / 0x40;
    } else {
      assert (cp / 0x40) * 0x40 + cp % 0x40 == cp;
      assert (cp / 0x1000) * 0x40 + (cp / 0x40) % 0x40 == cp / 0x40;
      assert (cp / 0x4_0000) * 0x40 + (cp / 0x1000) % 0x40 == cp / 0x1000;
    }
  }

  /** The UTF-8 encoding of a string. */
  function Utf8(s: string): (bs: seq<Byte>)
    ensures |s| <= |bs| <= 4 * |s|
  {
    if s == [] then [] else EncodeChar(s[0]) + Utf8(s[1..])
  }

  lemma {:induction false} Utf8Append(a: string, b: string)
    ensures Utf8(a + b) == Utf8(a) + Utf8(b)
    decreases |a|
  {
    if a != [] {
      assert (a + b)[0] == a[0] && (a + b)[1..] == a[1..] + b;
      Utf8Append(a[1..], b);
    } else {
      assert a + b == b;
    }
  }

  /** Distinct strings have distinct UTF-8 encodings. */
  lemma {:induction false} Utf8Injective(a: string, b: string)
    requires Utf8(a) == Utf8(b)
    ensures a == b
    decreases |a|
  {
    if a != [] {
      assert b != [];
      var ea, eb := EncodeChar(a[0]), EncodeChar(b[0]);
      EncodeCharDecodes(a[0]);
      EncodeCharDecodes(b[0]);
      assert ea[0] == Utf8(a)[0] == Utf8(b)[0] == eb[0];
      assert ea == Utf8(a)[..|ea|] == Utf8(b)[..|eb|] == eb;
      assert Utf8(a[1..]) == Utf8(a)[|ea|..] == Utf8(b)[|eb|..] == Utf8(b[1..]);
      Utf8Injective(a[1..], b[1..]);
    }
  }

  /** A character other than NUL has no zero byte in its encoding. */
  lemma {:induction false} Utf8NoNul(s: string)
    requires '\0' !in s
    ensures forall i :: 0 <= i < |Utf8(s)| ==> Utf8(s)[i] != 0
    decreases |s|
  {
    if s != [] {
      assert s[0] != '\0' && '\0' !in s[1..];
      Utf8NoNul(s[1..]);
    }
  }

  /** The 72 bytes bcrypt keys its cipher with: the UTF-8 encoding and a
      terminating NUL, repeated from the start until 72 bytes are read. */
  function Key(password: string): (k: seq<Byte>)
    ensures |k| == 72
  {
    Cycle(Utf8(password) + [0], 72)
  }

  /** The first n bytes of b repeated without end. */
  function Cycle(b: seq<Byte>, n: nat): (k: seq<Byte>)
    requires b != []
    ensures |k| == n
    ensures forall i :: 0 <= i < |b| && i < n ==> k[i] == b[i]
    decreases n
  {
    if n <= |b| then b[..n] else b + Cycle(b, n - |b|)
  }

  /** Reading b twice over cyclically is reading b cyclically. */
  lemma {:induction false} CycleDoubled(b: seq<Byte>, n: nat)
    requires b != []
    ensures Cycle(b + b, n) == Cycle(b, n)
    decreases n
  {
    if n > |b + b| {
      CycleDoubled(b, n - |b + b|);
      assert Cycle(b, n - |b|) == b + Cycle(b, n - |b| - |b|);
    } else if n > |b| {
      assert (b + b)[..n] == b + b[..n - |b|];
    } else {
      assert (b + b)[..n] == b[..n];
    }
  }

  /** A digest, determined by the key it was computed from. */
  datatype PasswordHash = Digest(key: seq<Byte>)

  /** bcrypt.hash(password, 10) */
  function Hash(password: string): PasswordHash
  {
    Digest(Key(password))
  }

  /** bcrypt.compare(candidate, digest) */
  predicate Compare(candidate: string, digest: PasswordHash)
  {
    Hash(candidate) == digest
  }

  /** The key of a password of at least 72 UTF-8 bytes is its first 72 bytes. */
  lemma LongKey(p: string)
    requires |Utf8(p)| >= 72
    ensures Key(p) == Utf8(p)[..72]
  {
    assert Key(p)[..72] == (Utf8(p) + [0])[..72];
  }

  /** The key of a shorter password without NUL holds its bytes, then its
      first zero byte at the position of the terminator. */
  lemma ShortKey(p: string)
    requires |Utf8(p)| < 72 && '\0' !in p
    ensures Key(p)[|Utf8(p)|] == 0
    ensures forall i :: 0 <= i < |Utf8(p)| ==> Key(p)[i] == Utf8(p)[i] != 0
  {
    Utf8NoNul(p);
    assert Key(p)[|Utf8(p)|] == (Utf8(p) + [0])[|Utf8(p)|];
  }

  /** Two shorter passwords without NUL are keyed alike only when equal. */
  lemma ShortKeysDiffer(p: string, c: string)
    requires |Utf8(p)| < 72 && '\0' !in p
    requires |Utf8(c)| < 72 && '\0' !in c
    requires Key(c) == Key(p)
    ensures c == p
  {
    ShortKey(p);
    ShortKey(c);
    var np, nc := |Utf8(p)|, |Utf8(c)|;
    if np == nc {
      assert Utf8(c) == Key(c)[..nc] == Key(p)[..np] == Utf8(p);
      Utf8Injective(c, p);
    }
  }

  /** A shorter and a longer password without NUL are keyed differently:
      only the shorter key has a zero byte. */
  lemma MixedKeysDiffer(p: string, c: string)
    requires |Utf8(p)| < 72 && '\0' !in p
    requires |Utf8(c)| >= 72 && '\0' !in c
    ensures Key(c) != Key(p)
  {
    ShortKey(p);
    LongKey(c);
    Utf8NoNul(c);
    assert Key(c)[|Utf8(p)|] == Utf8(c)[|Utf8(p)|];
  }

  /** A digest accepts its own password. Among passwords without a NUL
      character it accepts exactly the password itself and, when that is at
      least 72 UTF-8 bytes long, every password of at least 72 bytes with
      the same first 72 bytes; that last part holds even with NULs. */
  lemma CompareRoundTrip(password: string, candidate: string)
    ensures Compare(password, Hash(password))
    ensures '\0' !in password && '\0' !in candidate ==>
      (Compare(candidate, Hash(password)) <==>
        || candidate == password
        || (|Utf8(password)| >= 72 && |Utf8(candidate)| >= 72 && Utf8(candidate)[..72] == Utf8(password)[..72]))
    ensures |Utf8(password)| >= 72 && |Utf8(candidate)| >= 72 ==>
      (Compare(candidate, Hash(password)) <==> Utf8(candidate)[..72] == Utf8(password)[..72])
  {
    var np, nc := |Utf8(password)|, |Utf8(candidate)|;
    if np >= 72 && nc >= 72 {
      LongKey(password);
      LongKey(candidate);
    } else if '\0' !in password && '\0' !in candidate {
      if np < 72 && nc < 72 {
        if Key(candidate) == Key(password) {
          ShortKeysDiffer(password, candidate);
        }
      } else if np < 72 {
        MixedKeysDiffer(password, candidate);
      } else {
        MixedKeysDiffer(candidate, password);
      }
    }
  }

  /** Whatever follows the first 72 UTF-8 bytes of a password is ignored:
      `p + x` and `p + y` have the same digest. */
  lemma LongPasswordsShareDigest(p: string, x: string, y: string)
    requires |Utf8(p)| >= 72
    ensures Hash(p + x) == Hash(p + y)
  {
    Utf8Append(p, x);
    Utf8Append(p, y);
    LongKey(p + x);
    LongKey(p + y);
    assert Utf8(p + x)[..72] == Utf8(p)[..72] == Utf8(p + y)[..72];
  }

  /** A short key is read cyclically, so a password that spells out the
      cycle shares the digest: "a" and "a\0a" are keyed alike. */
  lemma ShortKeysCycle()
    ensures Hash("a") == Hash("a\0a")
  {
    var b := Utf8("a") + [0];
    assert b == [0x61, 0];
    assert Utf8("a\0a") + [0] == [0x61, 0, 0x61, 0] == b + b;
    CycleDoubled(b, 72);
  }
}

=== FILE: codes.dfy ===
/**
 * The six-digit verification codes: Math.floor(100000 + Math.random() *
 * 900000) written out by toString(). Math.random() is a parameter in [0, 1).
 */
module Codes {

  /** A value of Math.random(). */
  type UnitInterval = r: real | 0.0 <= r < 1.0

  /** The numbers a six-digit code can stand for. */
  type SixDigit = n: int | 100000 <= n <= 999999 witness 100000

  /** Math.floor(100000 + Math.random() * 900000), computed over the reals
      (floating-point rounding is not modelled). */
  function RandomCode(r: UnitInterval): (n: int)
    ensures 100000 <= n <= 999999
  {
    (100000.0 + r * 900000.0).Floor
  }

  /** Every six-digit number is produced by some value of Math.random(). */
  lemma RandomCodeCovers(n: SixDigit)
    ensures exists r: UnitInterval :: RandomCode(r) == n
  {
    var r: real := (n - 100000) as real / 900000.0;
    assert 100000.0 + r * 900000.0 == n as real;
    assert RandomCode(r) == n;
  }

  predicate IsDigit(c: char)
  {
    '0' <= c <= '9'
  }

  predicate AllDigits(s: string)
  {
    forall i :: 0 <= i < |s| ==> IsDigit(s[i])
  }

  /** A verification code as the controller stores it: six decimal digits
      without a leading zero. */
  predicate IsCode(s: string)
  {
    |s| == 6 && AllDigits(s) && s[0] != '0'
  }

  function DigitChar(d: int): (c: char)
    requires 0 <= d < 10
    ensures IsDigit(c)
  {
    ('0' as int + d) as char
  }

  function DigitValue(c: char): (d: int)
    requires IsDigit(c)
    ensures 0 <= d < 10
  {
    c as int - '0' as int
  }

  /** Number.prototype.toString() on a non-negative integer: its decimal
      digits, most significant first, with no leading zero. */
  function Decimal(n: nat): (s: string)
    ensures |s| >= 1 && AllDigits(s)
    ensures n >= 1 ==> s[0] != '0'
    decreases n
  {
    if n < 10 then [DigitChar(n)] else Decimal(n / 10) + [DigitChar(n % 10)]
  }

  /** The value of a string of decimal digits. */
  function ParseDecimal(s: string): nat
    requires AllDigits(s)
  {
    if s == [] then 0 else ParseDecimal(s[..|s| - 1]) * 10 + DigitValue(s[|s| - 1])
  }

  function Pow10(k: nat): nat
  {
    if k == 0 then 1 else 10 * Pow10(k - 1)
  }

  /** Reading back the decimal string of `n` gives `n`. */
  lemma {:induction false} ParseDecimalOfDecimal(n: nat)
    ensures ParseDecimal(Decimal(n)) == n
    decreases n
  {
    if n >= 10 {
      var s := Decimal(n);
      assert s[..|s| - 1] == Decimal(n / 10);
      ParseDecimalOfDecimal(n / 10);
      assert DigitValue(DigitChar(n % 10)) == n % 10;
    }
  }

  /** A number in [10^k, 10^(k+1)) has k + 1 decimal digits. */
  lemma {:induction false} DecimalLength(n: nat, k: nat)
    requires Pow10(k) <= n < Pow10(k + 1)
    ensures |Decimal(n)| == k + 1
    decreases k
  {
    if k > 0 {
      assert Pow10(k) == 10 * Pow10(k - 1);
      assert n >= 10;
      DecimalLength(n / 10, k - 1);
    } else {
      assert n < 10;
    }
  }

  /** The string a six-digit number is stored and mailed as; the number can
      be read back from it, so distinct numbers give distinct codes. */
  function CodeString(n: SixDigit): (s: string)
    ensures IsCode(s)
    ensures ParseDecimal(s) == n
  {
    assert Pow10(5) == 100000 && Pow10(6) == 1000000;
    DecimalLength(n, 5);
    ParseDecimalOfDecimal(n);
    Decimal(n)
  }

  /** Two codes are equal exactly when the numbers they were made from are. */
  lemma CodeStringInjective(a: SixDigit, b: SixDigit)
    ensures CodeString(a) == CodeString(b) <==> a == b
  {
  }
}

=== FILE: jwt.dfy ===
/**
 * JSON Web Tokens as the controller signs and checks them with
 * jsonwebtoken. Signing and HMAC are abstracted: a token is genuine when it
 * was produced by `Sign` with the process secret, and forged otherwise.
 * Times are whole seconds, the unit of a JWT `exp` claim.
 */
module Jwt {
  import opened Wrappers

  /** A MongoDB ObjectId; allocation is modelled as a counter. */
  type UserId = nat

  /** The payload: `{ email }` for verification and reset tokens,
      `{ userId }` for the session token issued at login. */
  datatype Claim = EmailClaim(email: string) | UserIdClaim(userId: UserId)

  datatype Token = Token(claim: Claim, exp: int, genuine: bool)

  /** The `expiresIn` values "10m", "15m" and "7d", in seconds. */
  const TenMinutes: nat := 10 * 60
  const FifteenMinutes: nat := 15 * 60
  const SevenDays: nat := 7 * 24 * 60 * 60

  /** jwt.sign(claim, secret, { expiresIn: ttl }) at time `now`. */
  function Sign(claim: Claim, now: int, ttl: nat): Token
  {
    Token(claim, now + ttl, true)
  }

  /** jwt.verify(token, secret): rejects a bad signature, and an expired
      token once the clock reaches `exp`. */
  function Verify(t: Token, now: int): Option<Claim>
  {
    if t.genuine && now < t.exp then Some(t.claim) else None
  }

  /** jwt.verify(token, secret, { ignoreExpiration: true }). */
  function VerifyIgnoringExpiration(t: Token): Option<Claim>
  {
    if t.genuine then Some(t.claim) else None
  }

  /** `decoded.email`: undefined for a session token. */
  function EmailOf(c: Claim): Option<string>
  {
    match c
    case EmailClaim(e) => Some(e)
    case UserIdClaim(_) => None
  }

  /** A token signed with lifetime `ttl` verifies, giving back its claim,
      until `ttl` seconds have passed, and never afterwards. */
  lemma SignThenVerify(c: Claim, issuedAt: int, ttl: nat, now: int)
    ensures Verify(Sign(c, issuedAt, ttl), now) == if now < issuedAt + ttl then Some(c) else None
    ensures VerifyIgnoringExpiration(Sign(c, issuedAt, ttl)) == Some(c)
  {
  }

  /** A forged token is rejected by both checks; the lenient check accepts
      everything the strict one does. */
  lemma VerifyRejectsForgery(t: Token, now: int)
    ensures !t.genuine ==> Verify(t, now).None? && VerifyIgnoringExpiration(t).None?
    ensures Verify(t, now).Some? ==> VerifyIgnoringExpiration(t) == Verify(t, now)
  {
  }
}

=== FILE: user_model.dfy ===
/**
 * The auth-relevant part of the Mongoose `User` schema, and the collection
 * of user documents the controller reads with `findOne` and writes with
 * `save`.
 */
module UserModel {
  import opened Wrappers
  import opened Bcrypt
  import opened Codes
  import opened Jwt

  /** `verificationStatus`: enum ['unverified', 'verified'], default 'unverified'. */
  datatype VerificationStatus = Unverified | Verified

  /** One user document. `verificationExpires` is the field the resend
      handler reads and writes; the schema does not declare it, see `Driver`. */
  datatype Account = Account(
    id: UserId,
    email: string,
    phone: Option<string>,
    password: PasswordHash,
    isVerified: bool,
    verificationCode: Option<string>,
    verificationStatus: VerificationStatus,
    verificationExpires: Option<int>)

  /** The `users` collection: documents keyed by their unique email, the
      email of the document an empty filter returns first (natural order),
      and the next ObjectId to hand out. */
  datatype Store = Store(users: map<string, Account>, first: Option<string>, nextId: UserId)

  const EmptyStore := Store(map[], None, 0)

  /** Two behaviours of the persistence layer the controller depends on.
      `undefinedFilterMatchesAny`: Mongoose drops an `undefined` filter
      value, so `findOne({ email: undefined })` returns an arbitrary (the
      first) document. `strictSchema`: a write to a path the schema does not
      declare is not persisted. */
  datatype Driver = Driver(undefinedFilterMatchesAny: bool, strictSchema: bool)

  /** The behaviour the controller is written against. */
  const Intended := Driver(false, false)

  /** Mongoose's defaults. */
  const Deployed := Driver(true, true)

  /** A record with this phone exists. The unique index treats a missing
      phone as null, so two records without a phone collide too. */
  predicate PhoneTaken(st: Store, phone: Option<string>)
  {
    exists e :: e in st.users && st.users[e].phone == phone
  }

  /** User.findOne({ email }), giving the key of the matching document. */
  function FindOne(drv: Driver, st: Store, email: Option<string>): (k: Option<string>)
    ensures k.Some? ==> k.value in st.users
    ensures email.Some? ==> (k.Some? <==> email.value in st.users)
    ensures email.Some? && k.Some? ==> k == email
    ensures email.None? && !drv.undefinedFilterMatchesAny ==> k.None?
  {
    match email
    case Some(e) => if e in st.users then Some(e) else None
    case None =>
      if drv.undefinedFilterMatchesAny && st.first.Some? && st.first.value in st.users
      then st.first else None
  }

  /** `user.verificationExpires = t` followed by `save()`. */
  function SetExpiry(drv: Driver, a: Account, t: int): Account
  {
    if drv.strictSchema then a else a.(verificationExpires := Some(t))
  }

  /** Replace the document stored under `k`. */
  function Put(st: Store, k: string, a: Account): Store
  {
    st.(users := st.users[k := a])
  }

  /** What every record the controller creates satisfies. */
  predicate AccountOk(st: Store, e: string)
    requires e in st.users
  {
    var a := st.users[e];
    && a.email == e
    && a.id < st.nextId
    && a.verificationStatus == Unverified
    && (a.verificationCode.Some? ==> IsCode(a.verificationCode.value))
  }

  /** The collection's invariant: the unique indexes on email (the map key)
      and phone hold, ObjectIds are distinct, and `first` names a document
      exactly when there is one. */
  predicate Wf(st: Store)
  {
    && (forall e :: e in st.users ==> AccountOk(st, e))
    && (forall e1, e2 :: e1 in st.users && e2 in st.users && e1 != e2 ==>
          st.users[e1].id != st.users[e2].id && st.users[e1].phone != st.users[e2].phone)
    && (st.first.None? <==> st.users == map[])
    && (st.first.Some? ==> st.first.value in st.users)
  }

  lemma EmptyStoreWf()
    ensures Wf(EmptyStore)
  {
  }

  /** Under Mongoose's defaults, a filter on an undefined email finds the
      first document of any non-empty collection. */
  lemma FindOneUndefinedWhenDeployed(st: Store)
    requires Wf(st) && st.users != map[]
    ensures FindOne(Deployed, st, None) == st.first
    ensures FindOne(Intended, st, None) == None
  {
  }
}

=== FILE: wrappers.dfy ===
/** The optional value used for nullable fields and for lookups that may miss. */
module Wrappers {

  datatype Option<+T> = None | Some(value: T)
}
